=== FILE: README.md ===
# Utility functions of the CodeRabbit review samples, in Dafny

This project models the pure logic of three Python sample files as immutable
Dafny datatypes and functions, and proves what each routine promises:

- `test_coderabbit.py`: the Fibonacci generator, the age-band count, the
  e-mail shape check, the list maximum, and the `Calculator` with its history.
- `test_coderabbit_base_branch.py`: the old and new versions of the record
  processing, duplicate finding and user validation routines, and the
  `UserManagerNew` store of `User` records. Each old/new pair is proved to
  agree on every record whose present keys hold values of the documented
  type.
- `test_coderabbit_generic.py`: filename sanitising, truncation,
  required-field and range validation, `group_by_key`, `flatten_list`,
  `remove_duplicates`, `Config` get/set, and `FileLock` as a small state
  machine over "does the marker file exist".

Python dictionaries with optional keys become datatypes with `Option` fields,
where a missing key is `None`. Exceptions the code raises become `Result`
failures (`KeyError`, `ValueError`, `RuntimeError`). Floats become `real` and
integers are unbounded, like Python's. Whitespace for `str.strip()` is the
set of characters `str.isspace()` accepts, listed one by one.

One file per module:

| file | module | Python |
|---|---|---|
| `wrappers.dfy` | `Wrappers` | `Option` and `Result` |
| `seqs.dfy` | `Seqs` | `str.join`, and "no value twice" |
| `fibonacci.dfy` | `Fibonacci` | `calculate_fibonacci` |
| `age_groups.dfy` | `AgeGroups` | `process_user_data` |
| `email.dfy` | `Email` | `validate_email`, `str.split` with `str.join` |
| `max_number.dfy` | `MaxNumber` | `find_max_number` |
| `calculator.dfy` | `Calculator` | `Calculator` |
| `process_data.dfy` | `ProcessData` | `process_data_old_way` / `_new_way` |
| `duplicates.dfy` | `Duplicates` | `find_duplicates_old` / `_new` |
| `user_store.dfy` | `UserStore` | `User`, `UserManagerNew` |
| `validate_user.dfy` | `ValidateUser` | `validate_user_old` / `_new` |
| `sanitize.dfy` | `Sanitize` | `sanitize_filename` |
| `truncate.dfy` | `Truncate` | `truncate_string` |
| `field_validation.dfy` | `FieldValidation` | `validate_required_fields`, `validate_numeric_range` |
| `grouping.dfy` | `Grouping` | `group_by_key` |
| `flatten.dfy` | `Flatten` | `flatten_list` |
| `dedup.dfy` | `Dedup` | `remove_duplicates` |
| `config.dfy` | `Configuration` | `Config.__init__`, `get`, `set` |
| `file_lock.dfy` | `FileLock` | `FileLock` |

Modelling choices:

- Both the "old" and the "new" version of each refactored routine are
  modelled, and each pair is proved to agree on every record whose present
  keys hold values of the documented type. The new version alone would not
  show that the refactoring kept the behaviour on those records. Outside
  them the versions can differ (see `ValidateUser.ValidateUserOld` under
  "Left out").
- `get_all_users` lists users in dictionary insertion order. Ids are issued
  in increasing order and never reused, so that order is ascending id order,
  and the model lists them that way.
- `truncate_string` can return a string longer than the limit (see Findings).

## Model

| member | source | states |
|---|---|---|
| Fibonacci.CalculateFibonacci | test_coderabbit.py:34-54 | A count of 0 or less gives the empty list. Otherwise the list has exactly `n` entries and entry `i` is the `i`-th Fibonacci number F(i) (0, 1, 1, 2, …), so entries from index 2 on are the sum of the two before. |
| Fibonacci.FibRecurrence | test_coderabbit.py:51-53 | A list that agrees with the Fibonacci numbers satisfies the recurrence the loop uses to extend it. |
| AgeGroups.BandOf | test_coderabbit.py:74-83 | A missing age counts as 0. A negative age falls in no band. Ages 0-25 are young, 26-50 adult and 51 or more senior, each as an if-and-only-if. |
| AgeGroups.ProcessUserData | test_coderabbit.py:57-84 | Each of the three counts equals the number of users whose age falls in that band, and the counts add up to the number of users whose age is not negative. |
| AgeGroups.BandsPartitionNonNegative | test_coderabbit.py:74-83 | Every user with a non-negative age lands in exactly one band. |
| Email.Split | test_coderabbit.py:100 | `split('@')` yields one more piece than there are separators. |
| Email.SplitJoin | test_coderabbit.py:100-104 | Splitting loses nothing: joining the pieces with the separator gives the string back, and no piece contains the separator. |
| Email.SplitAtOnly | test_coderabbit.py:100-104 | A string with exactly one separator splits into the text before it and the text after it. |
| Email.ValidateEmailIff | test_coderabbit.py:87-111 | The check accepts exactly the strings with one '@', non-empty text before and after it, and a '.' somewhere after it. |
| MaxNumber.FindMaxNumber | test_coderabbit.py:114-132 | `None` exactly for the empty list; otherwise a value that occurs in the list and is at least every entry. |
| Calculator.Init | test_coderabbit.py:181-182 | A new calculator has an empty history. |
| Calculator.Apply | test_coderabbit.py:184-208 | Only division by zero fails, and then the history is untouched. Every other call returns the exact sum, difference, product or quotient, and appends exactly one entry for it to the history. |
| Calculator.ClearHistory | test_coderabbit.py:214-216 | After clearing, the history reads as empty. |
| Calculator.HistoryAppendOnly | test_coderabbit.py:184-212 | With no clear in between, the earlier history stays a prefix and grows by one entry per successful operation; reads and failed divisions add nothing. |
| Calculator.HistoryLog | test_coderabbit.py:184-212 | `get_history` after any calls without a clear returns the history it returned before, followed by one entry per successful operation, with its operands and exact result, in call order. Reads and failed divisions add nothing. |
| Calculator.ClearThenRun | test_coderabbit.py:214-216 | After a clear, the history length is the number of successful operations since. |
| ProcessData.ActiveOnly | test_coderabbit_base_branch.py:48 | The records kept are active records of the input, and every active record of the input is kept. |
| ProcessData.ActiveOnlyAppend | test_coderabbit_base_branch.py:47-48 | The filter keeps input order: the active records of a concatenation are those of its first part followed by those of its second. |
| ProcessData.ProcessDataNewWaySpec | test_coderabbit_base_branch.py:37-49 | The comprehension raises exactly when some active record lacks `id` or `name`. Otherwise it returns one output per active record, in order, each with that record's id and name and twice its value (0 when missing). |
| ProcessData.ProcessDataOldWay | test_coderabbit_base_branch.py:21-34 | The index loop returns the same result as the comprehension on every input, including which `KeyError` it raises. |
| Duplicates.FindDuplicatesOld | test_coderabbit_base_branch.py:103-112 | The result holds an item exactly when it occurs at least twice in the input, and lists it once. |
| Duplicates.FindDuplicatesNew | test_coderabbit_base_branch.py:115-128 | The duplicate set holds an item exactly when it occurs at least twice in the input, so it has the same members as the old version's list. |
| UserStore.Init | test_coderabbit_base_branch.py:186-188 | A new manager is empty, issues id 1 first, and satisfies the store invariant. |
| UserStore.GetUser | test_coderabbit_base_branch.py:196-197 | A lookup finds a record exactly when the id is stored, and returns the stored record. |
| UserStore.AddUser | test_coderabbit_base_branch.py:190-194 | The new user gets the current counter as id and the given fields, and can be read back. The counter goes up by one. No earlier record changes. Under the invariant the id was unused and the invariant still holds. |
| UserStore.DeleteUser | test_coderabbit_base_branch.py:199-203 | The result is true exactly when the id was stored, and afterwards the id is absent. Other records and the counter are untouched, a miss changes nothing, and the invariant is kept. |
| UserStore.GetAllUsers | test_coderabbit_base_branch.py:205-206 | The list holds exactly the stored records, one per stored id, in strictly increasing id order. |
| UserStore.IdsNeverReused | test_coderabbit_base_branch.py:186-203 | Across any sequence of adds, deletes and lookups, the ids handed out strictly increase. None of them was stored before the sequence began, and the invariant holds at the end. |
| ValidateUser.ValidateUserNew | test_coderabbit_base_branch.py:277-296 | A user is valid exactly when the record is present, its email contains '@', its name is non-empty and its age is positive. |
| ValidateUser.ValidateUserOld | test_coderabbit_base_branch.py:262-274 | The nested version gives the same answer as the early-return version on every record whose present keys hold values of the documented type. |
| Sanitize.ReplaceEachIsOnePass | test_coderabbit_generic.py:169-171 | The loop of `replace` calls acts as one pass: every listed character becomes '_' and every other character stays, with the length unchanged. |
| Sanitize.ReplaceUnsafe | test_coderabbit_generic.py:168-171 | After the replacements, each of `/ \ : * ? " < > \|` has become '_' and every other character is unchanged at its position, so no unsafe character is left. |
| Sanitize.StripIsSlice | test_coderabbit_generic.py:172 | `strip()` keeps a contiguous slice, everything it cuts off before and after is whitespace, and the slice neither starts nor ends with whitespace. |
| Sanitize.TrimmedSliceUnique | test_coderabbit_generic.py:172 | Those three conditions determine the stripped text: two slices meeting them are equal. |
| Sanitize.SanitizeFilename | test_coderabbit_generic.py:157-172 | A sanitised name contains none of `/ \ : * ? " < > \|`, and is the replaced name with only whitespace cut from its ends and none left there. |
| Sanitize.SanitizeIdempotent | test_coderabbit_generic.py:157-172 | Sanitising a sanitised name changes nothing. |
| Truncate.TruncateString | test_coderabbit_generic.py:175-189 | A text within the limit comes back unchanged. When the limit is at least the suffix length, the result is a prefix of the text plus the suffix, exactly the limit long. In every cut case the result is a prefix plus the suffix. |
| Truncate.TruncateOverflows | test_coderabbit_generic.py:187-189 | When the limit is shorter than the suffix, the result exceeds the limit, and for a positive limit it is longer than the text itself. |
| Truncate.TruncateOverflowExample | test_coderabbit_generic.py:189 | `truncate_string("abcdefghij", 1)` is `"abcdefgh..."`. |
| Truncate.TruncateStringClamped | test_coderabbit_generic.py:175-189 | The corrected truncation agrees with the original whenever the suffix fits. It never returns more than the limit or more than the text (nothing for a negative limit), and its result is a prefix of the text or a prefix plus the suffix. |
| FieldValidation.MissingFieldsMembers | test_coderabbit_generic.py:277 | A field is reported missing exactly when it is required and not a key of the data. |
| FieldValidation.ValidateRequiredFields | test_coderabbit_generic.py:266-281 | `(True, None)` exactly when every required field is a key. Otherwise `False` with the fixed prefix and the missing fields joined by ", ". |
| FieldValidation.MissingFieldsOrdered | test_coderabbit_generic.py:277-279 | Missing fields appear in the message in the order they were required. |
| FieldValidation.ValidateNumericRange | test_coderabbit_generic.py:284-301 | True exactly when there is no minimum or the value is at least it, and there is no maximum or the value is at most it. |
| Grouping.GroupKey | test_coderabbit_generic.py:366 | `item.get(key)` gives a value only when the key is present and does not hold `None`; a missing key and a `None` value both give `None`. |
| Grouping.GroupByKey | test_coderabbit_generic.py:364-370 | Each group holds exactly the records whose value under the key is that group's value, in input order; a missing key or a `None` value groups under `None`. A group exists exactly for the values that occur. The keys are the values in the order they were first met, each once, and the group sizes add up to the number of records. |
| Flatten.FlattenAppend | test_coderabbit_generic.py:384-390 | Flattening respects concatenation, so values keep their left-to-right order. |
| Flatten.NestTransparent | test_coderabbit_generic.py:386-387 | A nested list contributes its own values in place. |
| Flatten.FlattenFlat | test_coderabbit_generic.py:388-389 | A list with no nested lists flattens to its own values. |
| Flatten.FlattenLength | test_coderabbit_generic.py:384-390 | The output has exactly one entry per plain value anywhere in the input. |
| Flatten.FlattenIdempotent | test_coderabbit_generic.py:374-390 | The output holds no nested list: flattening it again gives it back. |
| Dedup.FirstIndicesSpec | test_coderabbit_generic.py:407-414 | The kept positions strictly increase, each is the first position of its key, and every first position is kept. |
| Dedup.FirstOnlySpec | test_coderabbit_generic.py:407-414 | No two kept items share a key, and every key of the input is represented. |
| Dedup.RemoveDuplicatesBy | test_coderabbit_generic.py:407-414 | The loop with the seen-set returns the first item of each key, in input order. Its items have pairwise different keys and cover every key of the input. |
| Dedup.FromKeysIsIdentityKey | test_coderabbit_generic.py:404-405 | Without a key function, `dict.fromkeys` keeps the first occurrence of each item, which is the keyed version with each item as its own key. |
| Configuration.Init | test_coderabbit_generic.py:424-425 | The configuration holds exactly the given dictionary, or nothing when none is given. |
| Configuration.Get | test_coderabbit_generic.py:427-438 | A set key reads as its stored value; an unset key reads as the default. |
| Configuration.Set | test_coderabbit_generic.py:440-448 | Setting adds the key to the configuration's keys and adds nothing else. |
| Configuration.GetAfterSet | test_coderabbit_generic.py:427-448 | Reading a key right after setting it gives the value set. |
| Configuration.SetLeavesOthers | test_coderabbit_generic.py:440-448 | Setting one key leaves every other key reading as before. |
| Configuration.SetOverrides | test_coderabbit_generic.py:440-448 | A later set of the same key replaces an earlier one. |
| Configuration.EmptyGivesDefaults | test_coderabbit_generic.py:424-438 | A configuration built without a dictionary answers every read with the default. |
| FileLock.New | test_coderabbit_generic.py:311-313 | A new lock object has not taken the lock. |
| FileLock.Enter | test_coderabbit_generic.py:315-322 | Entering fails exactly when the marker exists, and then changes nothing. Otherwise it creates the marker and marks the lock as held. |
| FileLock.Exit | test_coderabbit_generic.py:324-328 | Leaving removes the marker only when this object took the lock and the marker is still there. It never clears `locked` and never suppresses an exception. |
| FileLock.ScopedRelease | test_coderabbit_generic.py:315-328 | Taking a free lock succeeds, and on leaving the block the marker is gone whatever happened in the body. |
| FileLock.NoDoubleAcquire | test_coderabbit_generic.py:315-322 | While the marker exists, no lock object can enter. |
| FileLock.ExitIdempotent | test_coderabbit_generic.py:324-328 | Leaving twice is the same as leaving once. |
| FileLock.UnheldExitKeepsMarker | test_coderabbit_generic.py:324-328 | An object that has not taken the lock never removes the marker. |

## Left out

- File and JSON I/O are not modelled, because they are filesystem and library plumbing. This covers `read_json_file`, `write_json_file`, `get_file_size`, `Config.load_from_file` / `save_to_file`, `read_config_old` / `_new`, `process_file_old` / `_new` and `format_json_output`.
- `timing_decorator`, `Timer` and `retry_decorator` are not modelled, because they depend on the wall clock and sleeping.
- `hash_password_old` / `_new` are not modelled, because they are calls into md5, sha256 and `secrets`.
- `format_datetime`, `parse_datetime`, `get_date_range` and `extract_numbers` are not modelled, because they rest on date libraries, regular expressions and float parsing.
- `calculate_circle_area`, `calculate_statistics` and `calculate_total_old` / `_new` are not modelled, because they are floating-point arithmetic.
- `UserManagerOld` is not modelled. It issues `len + 1` as the next id and so reuses ids after a delete; it is the foil for `UserManagerNew`.
- Logging calls, the `__main__` demonstration blocks, `User.to_dict` and `test_simple_utiles.py` are not modelled. The last tests functions whose source is not part of this model.
- Calculator.Apply: arithmetic is exact `real` arithmetic, not IEEE doubles. Each history entry keeps its operands and result rather than the formatted text `"a + b = result"`.
- Duplicates.FindDuplicatesNew: returns a set. Python returns `list(duplicates)` in hash order, so only the members are specified, not their order.
- Duplicates.FindDuplicatesOld: the first-occurrence order of the result list is not stated, only its members and the absence of repeats.
- AgeGroups.ProcessUserData, ProcessData.ProcessDataNewWaySpec and ValidateUser.ValidateUserNew assume each present key holds a value of the documented type. `None`, strings in numeric fields and similar values are not modelled; in Python they raise `TypeError` or take other branches. Keys the routines do not read are left out of the records.
- ValidateUser.ValidateUserOld: a record's present key cannot hold `None`, so the proved agreement covers only records whose email and name are strings and whose age is a number. On `{'email': None, ...}` the old version raises `TypeError` at `'@' in None` while the new version returns False at `not email`, and a `None` name likewise makes `len(None)` raise in the old version and returns False in the new one. The two versions are not equal on such records.
- UserStore.AddUser: Python's `User` is a mutable object, and `add_user`, `get_user` and `get_all_users` hand out the stored object itself, so a caller that changes `u.id` or `u.name` changes the stored record and can break the invariant that each record is stored under its own id. The model's records are values, so the invariant assumes callers do not mutate the records they are given. This applies to UserStore.GetUser and UserStore.GetAllUsers as well.
- Configuration.Init: the Python object keeps a reference to a non-empty caller dictionary, so later changes through either are shared; an empty one is replaced by a new dictionary by `config_dict or {}`, and nothing is shared. The model copies the dictionary in both cases, because maps are values.
- Configuration.Get: values are of one type `V`. Python's default of `None` for `default` is the caller's choice of `V`.
- FileLock.Enter: the lock file path and the filesystem are reduced to one boolean, whether the marker exists. A check-then-create race between processes is not modelled.
- Grouping.GroupByKey: a record is a `map<string, Option<V>>` with one value type, where `None` stands for Python's `None`. The result dictionary is the pair of its insertion order and its groups. Group values are assumed hashable: Python raises `TypeError` at `group_key not in grouped` for a list or dictionary value, for example `group_by_key([{'tags': [1]}], 'tags')`, while the model groups such values like any other. Values are compared with Dafny equality, so Python's `1 == 1.0 == True` merging of dictionary keys is not modelled.
- Flatten.FlattenAppend: only Python lists are nested. Tuples and other iterables are plain values, as `isinstance(item, list)` makes them.
- Dedup.RemoveDuplicatesBy: the key function is a pure Dafny function, so a key function with side effects or one that raises is not modelled. Keys are assumed hashable: a key function that returns a list makes Python raise `TypeError` at the `seen` lookup, while the model compares such keys with Dafny equality. Python's `1 == 1.0 == True` merging of set members is not modelled.
- Dedup.FromKeysIsIdentityKey: items are assumed hashable. `remove_duplicates([[1, 2], [1, 2]])` raises `TypeError` inside `dict.fromkeys`, while `Dedup.FromKeys` returns `[[1, 2]]`. Python's `1 == 1.0 == True` merging of dictionary keys is not modelled either: items are compared with Dafny equality.

## Findings

| source | as written | input that shows it | evidently intended | confidence | as-written member | corrected member |
|---|---|---|---|---|---|---|
| test_coderabbit_generic.py:189 | `text[:max_length - len(suffix)] + suffix` slices with a negative bound when `max_length < len(suffix)`. Python counts that bound from the end, so the result can be longer than the limit and than the text. | `truncate_string("abcdefghij", 1)` returns `"abcdefgh..."` (11 characters, limit 1) | The result is never longer than `max_length` | medium, not executed | Truncate.TruncateOverflowExample | Truncate.TruncateStringClamped |

=== FILE: age_groups.dfy ===
/** `process_user_data`: counting users into three age bands. */
module AgeGroups {
  import opened Wrappers

  /** The part of a user dictionary the count looks at: its `age` entry,
      `None` when the key is missing. */
  datatype UserRow = UserRow(age: Option<int>)

  /** The three bands: 0-25, 26-50 and 51 or more. */
  datatype Band = Young | Adult | Senior

  /** The result dictionary `{'young', 'adult', 'senior'}`. */
  datatype AgeGroups = AgeGroups(young: nat, adult: nat, senior: nat)

  /** A missing age counts as 0. */
  function EffectiveAge(u: UserRow): int {
    u.age.GetOr(0)
  }

  /** The band a user falls in, or `None` for a negative age (skipped). */
  function BandOf(u: UserRow): (b: Option<Band>)
    ensures b.None? <==> EffectiveAge(u) < 0
    ensures b == Some(Young) <==> 0 <= EffectiveAge(u) <= 25
    ensures b == Some(Adult) <==> 26 <= EffectiveAge(u) <= 50
    ensures b == Some(Senior) <==> EffectiveAge(u) > 50
  {
    var age := EffectiveAge(u);
    if age < 0 then None
    else if age <= 25 then Some(Young)
    else if age <= 50 then Some(Adult)
    else Some(Senior)
  }

  /** Reference count: how many users of `users` fall in band `b`. */
  function CountBand(users: seq<UserRow>, b: Band): nat {
    if |users| == 0 then 0
    else CountBand(users[..|users| - 1], b) + (if BandOf(users[|users| - 1]) == Some(b) then 1 else 0)
  }

  /** Reference count: how many users have a non-negative (or missing) age. */
  function CountNonNegative(users: seq<UserRow>): nat {
    if |users| == 0 then 0
    else CountNonNegative(users[..|users| - 1]) + (if EffectiveAge(users[|users| - 1]) >= 0 then 1 else 0)
  }

  /** The single pass over the users, as written: skip a negative age,
      otherwise bump exactly the one band the age falls in. */
  method ProcessUserData(users: seq<UserRow>) returns (g: AgeGroups)
    ensures g.young == CountBand(users, Young)
    ensures g.adult == CountBand(users, Adult)
    ensures g.senior == CountBand(users, Senior)
    ensures g.young + g.adult + g.senior == CountNonNegative(users)
  {
    g := AgeGroups(0, 0, 0);
    var i := 0;
    while i < |users|
      invariant 0 <= i <= |users|
      invariant g.young == CountBand(users[..i], Young)
      invariant g.adult == CountBand(users[..i], Adult)
      invariant g.senior == CountBand(users[..i], Senior)
    {
      assert users[..i + 1][..i] == users[..i];
      var age := users[i].age.GetOr(0);
      if age < 0 {
      } else if age <= 25 {
        g := g.(young := g.young + 1);
      } else if age <= 50 {
        g := g.(adult := g.adult + 1);
      } else {
        g := g.(senior := g.senior + 1);
      }
      i := i + 1;
    }
    assert users[..i] == users;
    BandsPartitionNonNegative(users);
  }

  /** Every user with a non-negative age lands in exactly one band, so the
      three counts add up to the number of such users. */
  lemma {:induction false} BandsPartitionNonNegative(users: seq<UserRow>)
    ensures CountBand(users, Young) + CountBand(users, Adult) + CountBand(users, Senior)
            == CountNonNegative(users)
  {
    if |users| > 0 {
      BandsPartitionNonNegative(users[..|users| - 1]);
    }
  }
}

=== FILE: calculator.dfy ===
/** The `Calculator` class: four operations, each recording one history
    entry, with a history that can be read and cleared. Arithmetic is on
    `real`, so the entries record exact operands and results rather than
    the formatted floating-point text. */
module Calculator {
  import opened Wrappers

  datatype Op = Add | Subtract | Multiply | Divide

  /** One history line `"{a} {op} {b} = {result}"`, kept as its parts. */
  datatype Entry = Entry(op: Op, a: real, b: real, result: real)

  datatype Calculator = Calculator(history: seq<Entry>)

  /** `ValueError` raised by `divide` for a zero divisor. */
  datatype CalcError = DivisionByZero

  /** The outcome of one operation: the value or the error, and the
      calculator afterwards. */
  datatype Step = Step(outcome: Result<real, CalcError>, after: Calculator)

  /** A fresh calculator has an empty history. */
  function Init(): (c: Calculator)
    ensures c.history == []
  {
    Calculator([])
  }

  /** The value each operation computes. */
  function Evaluate(op: Op, a: real, b: real): real
    requires op == Divide ==> b != 0.0
  {
    match op
    case Add => a + b
    case Subtract => a - b
    case Multiply => a * b
    case Divide => a / b
  }

  /** `add`, `subtract`, `multiply` and `divide`: a successful operation
      appends exactly its own entry; a zero divisor raises and leaves the
      history as it was. */
  function Apply(c: Calculator, op: Op, a: real, b: real): (s: Step)
    ensures s.outcome.Failure? <==> op == Divide && b == 0.0
    ensures s.outcome.Failure? ==> s.after == c
    ensures s.outcome.Success? ==>
              s.after.history == c.history + [Entry(op, a, b, s.outcome.value)]
    ensures s.outcome.Success? ==> s.outcome.value == Evaluate(op, a, b)
  {
    if op == Divide && b == 0.0 then
      Step(Failure(DivisionByZero), c)
    else
      var result := Evaluate(op, a, b);
      Step(Success(result), Calculator(c.history + [Entry(op, a, b, result)]))
  }

  /** `get_history`: a copy of the history; reading it changes nothing. */
  function GetHistory(c: Calculator): seq<Entry> {
    c.history
  }

  /** `clear_history`. */
  function ClearHistory(c: Calculator): (c': Calculator)
    ensures GetHistory(c') == []
  {
    Calculator([])
  }

  /** A sequence of calls on one calculator. */
  datatype Command = Compute(op: Op, a: real, b: real) | Clear | Read

  function Run(c: Calculator, cmds: seq<Command>): Calculator
    decreases |cmds|
  {
    if |cmds| == 0 then c
    else
      var next := match cmds[0]
        case Compute(op, a, b) => Apply(c, op, a, b).after
        case Clear => ClearHistory(c)
        case Read => c;
      Run(next, cmds[1..])
  }

  /** Commands that append an entry: every operation except division by zero. */
  function Successes(cmds: seq<Command>): nat {
    if |cmds| == 0 then 0
    else
      (if cmds[0].Compute? && !(cmds[0].op == Divide && cmds[0].b == 0.0) then 1 else 0)
      + Successes(cmds[1..])
  }

  /** Between clears the history is append-only: what was there stays as a
      prefix, and it grows by exactly one entry per successful operation
      (reads and failed divisions add nothing). */
  lemma {:induction false} HistoryAppendOnly(c: Calculator, cmds: seq<Command>)
    requires forall i :: 0 <= i < |cmds| ==> !cmds[i].Clear?
    ensures c.history <= Run(c, cmds).history
    ensures |Run(c, cmds).history| == |c.history| + Successes(cmds)
    decreases |cmds|
  {
    if |cmds| > 0 {
      var next := match cmds[0]
        case Compute(op, a, b) => Apply(c, op, a, b).after
        case Clear => ClearHistory(c)
        case Read => c;
      HistoryAppendOnly(next, cmds[1..]);
    }
  }

  /** Reference: the entry each command writes, in command order. A
      successful operation writes its operands and its exact result; a
      failed division, a read and a clear write nothing. */
  function Logged(cmds: seq<Command>): seq<Entry> {
    if |cmds| == 0 then []
    else
      var cmd := cmds[0];
      (if cmd.Compute? && !(cmd.op == Divide && cmd.b == 0.0)
       then [Entry(cmd.op, cmd.a, cmd.b, Evaluate(cmd.op, cmd.a, cmd.b))]
       else [])
      + Logged(cmds[1..])
  }

  /** `get_history` after any calls without a clear returns the history it
      returned before, followed by one entry per successful operation in
      the order the calls were made. */
  lemma {:induction false} HistoryLog(c: Calculator, cmds: seq<Command>)
    requires forall i :: 0 <= i < |cmds| ==> !cmds[i].Clear?
    ensures GetHistory(Run(c, cmds)) == GetHistory(c) + Logged(cmds)
    decreases |cmds|
  {
    if |cmds| > 0 {
      var next := match cmds[0]
        case Compute(op, a, b) => Apply(c, op, a, b).after
        case Clear => ClearHistory(c)
        case Read => c;
      HistoryLog(next, cmds[1..]);
    }
  }

  /** After a clear, the history holds exactly the successful operations
      issued since. */
  lemma ClearThenRun(c: Calculator, cmds: seq<Command>)
    requires forall i :: 0 <= i < |cmds| ==> !cmds[i].Clear?
    ensures |Run(c, [Clear] + cmds).history| == Successes(cmds)
  {
    assert ([Clear] + cmds)[1..] == cmds;
    HistoryAppendOnly(ClearHistory(c), cmds);
  }
}

=== FILE: config.dfy ===
/** `Config`: a dictionary of settings with `get` (falling back to a
    default) and `set`. Loading from and saving to a JSON file are not part
    of this model. */
module Configuration {
  import opened Wrappers

  datatype Config<V> = Config(entries: map<string, V>)

  /** The constructor: the given dictionary, or an empty one when none (or
      an empty one) is passed. */
  function Init<V>(configDict: Option<map<string, V>>): (c: Config<V>)
    ensures forall key :: key in c.entries <==> configDict.Some? && key in configDict.value
    ensures forall key :: key in c.entries ==> c.entries[key] == configDict.value[key]
  {
    if configDict.Some? then Config(configDict.value) else Config(map[])
  }

  /** `get(key, default)`: the stored value when the key is set, the default
      otherwise. A stored value is returned even when it equals the default. */
  function Get<V>(c: Config<V>, key: string, default: V): (r: V)
    ensures key in c.entries ==> r == c.entries[key]
    ensures key !in c.entries ==> r == default
  {
    if key in c.entries then c.entries[key] else default
  }

  /** `set(key, value)`: adds the key or overwrites its value. */
  function Set<V>(c: Config<V>, key: string, value: V): (r: Config<V>)
    ensures r.entries.Keys == c.entries.Keys + {key}
  {
    Config(c.entries[key := value])
  }

  /** Reading a key back after setting it gives the value set, whatever the
      default. */
  lemma GetAfterSet<V>(c: Config<V>, key: string, value: V, default: V)
    ensures Get(Set(c, key, value), key, default) == value
  {
  }

  /** Setting one key leaves every other key reading as before. */
  lemma SetLeavesOthers<V>(c: Config<V>, key: string, value: V, other: string, default: V)
    requires other != key
    ensures Get(Set(c, key, value), other, default) == Get(c, other, default)
  {
  }

  /** A later `set` of the same key overrides an earlier one. */
  lemma SetOverrides<V>(c: Config<V>, key: string, v1: V, v2: V)
    ensures Set(Set(c, key, v1), key, v2) == Set(c, key, v2)
  {
  }

  /** A fresh configuration built without a dictionary answers every `get`
      with the default. */
  lemma EmptyGivesDefaults<V>(key: string, default: V)
    ensures Get(Init<V>(None), key, default) == default
  {
  }
}

=== FILE: dedup.dfy ===
/** `remove_duplicates`: keep the first item for each key, in input order.
    With a key function the items' keys are compared; without one the items
    themselves are (`dict.fromkeys`). */
module Dedup {

  /** The keys of the items of `s`. */
  function KeysOf<T, K>(s: seq<T>, key: T -> K): set<K> {
    if |s| == 0 then {} else KeysOf(s[..|s| - 1], key) + {key(s[|s| - 1])}
  }

  /** A key is among `KeysOf(s)` exactly when some item of `s` has it. */
  lemma {:induction false} KeysOfMembers<T, K>(s: seq<T>, key: T -> K, k: K)
    ensures k in KeysOf(s, key) <==> exists j :: 0 <= j < |s| && key(s[j]) == k
  {
    if |s| > 0 {
      var n := |s| - 1;
      KeysOfMembers(s[..n], key, k);
      assert forall j :: 0 <= j < n ==> s[..n][j] == s[j];
    }
  }

  /** Item `j` is the first of its key: no earlier item shares it. */
  ghost predicate IsFirst<T, K>(items: seq<T>, key: T -> K, j: int) {
    0 <= j < |items| && forall i :: 0 <= i < j ==> key(items[i]) != key(items[j])
  }

  /** Reference: the positions of the items `remove_duplicates` keeps, each
      kept when its key was not met before. */
  function FirstIndices<T, K(==)>(items: seq<T>, key: T -> K): (r: seq<nat>)
    ensures forall m :: 0 <= m < |r| ==> r[m] < |items|
  {
    if |items| == 0 then []
    else
      var n := |items| - 1;
      FirstIndices(items[..n], key) + (if key(items[n]) in KeysOf(items[..n], key) then [] else [n])
  }

  /** The items at the given positions, in the order given. */
  function Pick<T>(items: seq<T>, idx: seq<nat>): (r: seq<T>)
    requires forall m :: 0 <= m < |idx| ==> idx[m] < |items|
    ensures |r| == |idx| && forall m :: 0 <= m < |idx| ==> r[m] == items[idx[m]]
  {
    seq(|idx|, m requires 0 <= m < |idx| => items[idx[m]])
  }

  /** Reference result: the items at the first-occurrence positions. */
  function FirstOnly<T, K(==)>(items: seq<T>, key: T -> K): seq<T> {
    Pick(items, FirstIndices(items, key))
  }

  /** The kept positions are increasing (a subsequence of the input), each
      is the first item of its key, and every first item is kept. */
  lemma {:induction false} FirstIndicesSpec<T, K>(items: seq<T>, key: T -> K)
    ensures forall a, b :: 0 <= a < b < |FirstIndices(items, key)| ==>
              FirstIndices(items, key)[a] < FirstIndices(items, key)[b]
    ensures forall m :: 0 <= m < |FirstIndices(items, key)| ==> IsFirst(items, key, FirstIndices(items, key)[m])
    ensures forall j :: IsFirst(items, key, j) ==> j in FirstIndices(items, key)
  {
    if |items| > 0 {
      var n := |items| - 1;
      var init := items[..n];
      var r0 := FirstIndices(init, key);
      var r := FirstIndices(items, key);
      var isNew := key(items[n]) !in KeysOf(init, key);
      assert r == r0 + (if isNew then [n] else []);
      FirstIndicesSpec(init, key);
      KeysOfMembers(init, key, key(items[n]));
      assert forall j :: 0 <= j < n ==> init[j] == items[j];
      assert forall j :: 0 <= j < n ==> (IsFirst(init, key, j) <==> IsFirst(items, key, j));
      assert isNew <==> IsFirst(items, key, n);
      forall a, b | 0 <= a < b < |r|
        ensures r[a] < r[b]
      {
        assert r[a] == r0[a];
      }
      forall m | 0 <= m < |r|
        ensures IsFirst(items, key, r[m])
      {
        if m < |r0| {
          assert r[m] == r0[m] && IsFirst(init, key, r0[m]);
        }
      }
    }
  }

  /** Some item with the key of item `j` is the first of that key. */
  lemma {:induction false} FirstOccurrence<T, K>(items: seq<T>, key: T -> K, j: nat) returns (i: nat)
    requires j < |items|
    ensures i <= j && IsFirst(items, key, i) && key(items[i]) == key(items[j])
    decreases j
  {
    if IsFirst(items, key, j) {
      i := j;
    } else {
      var e :| 0 <= e < j && key(items[e]) == key(items[j]);
      i := FirstOccurrence(items, key, e);
    }
  }

  /** What `remove_duplicates` promises of the reference: no two kept items
      share a key, and every key of the input is kept. That each kept item
      is the first of its key is `FirstIndicesSpec`. */
  lemma FirstOnlySpec<T, K>(items: seq<T>, key: T -> K)
    ensures var r := FirstOnly(items, key);
      forall a, b :: 0 <= a < b < |r| ==> key(r[a]) != key(r[b])
    ensures var r := FirstOnly(items, key);
      forall j :: 0 <= j < |items| ==> exists m :: 0 <= m < |r| && key(r[m]) == key(items[j])
  {
    var idx := FirstIndices(items, key);
    var r := FirstOnly(items, key);
    FirstIndicesSpec(items, key);
    forall a, b | 0 <= a < b < |r|
      ensures key(r[a]) != key(r[b])
    {
      assert IsFirst(items, key, idx[b]) && idx[a] < idx[b];
    }
    forall j | 0 <= j < |items|
      ensures exists m :: 0 <= m < |r| && key(r[m]) == key(items[j])
    {
      var i := FirstOccurrence(items, key, j);
      var m :| 0 <= m < |idx| && idx[m] == i;
      assert r[m] == items[i];
    }
  }

  /** One more item extends the reference by that item exactly when its key
      is new. */
  lemma FirstOnlyStep<T, K>(items: seq<T>, key: T -> K, n: nat)
    requires n < |items|
    ensures FirstOnly(items[..n + 1], key)
            == FirstOnly(items[..n], key) + (if key(items[n]) in KeysOf(items[..n], key) then [] else [items[n]])
  {
    assert items[..n + 1][..n] == items[..n];
  }

  /** The loop as written, with a key function: it returns the reference
      result, so its items have pairwise different keys, cover every key of
      the input, and are each the first of their key. */
  method RemoveDuplicatesBy<T, K(==)>(items: seq<T>, key: T -> K) returns (r: seq<T>)
    ensures r == FirstOnly(items, key)
    ensures forall a, b :: 0 <= a < b < |r| ==> key(r[a]) != key(r[b])
    ensures forall j :: 0 <= j < |items| ==> exists m :: 0 <= m < |r| && key(r[m]) == key(items[j])
  {
    var seen: set<K> := {};
    r := [];
    var i := 0;
    while i < |items|
      invariant 0 <= i <= |items|
      invariant seen == KeysOf(items[..i], key)
      invariant r == FirstOnly(items[..i], key)
    {
      FirstOnlyStep(items, key, i);
      var itemKey := key(items[i]);
      if itemKey !in seen {
        seen := seen + {itemKey};
        r := r + [items[i]];
      }
      assert items[..i + 1][..i] == items[..i];
      i := i + 1;
    }
    assert items[..i] == items;
    FirstOnlySpec(items, key);
  }

  /** `list(dict.fromkeys(items))`: a dictionary keeps the first insertion
      of each key, in insertion order. */
  function FromKeys<T(==)>(items: seq<T>): seq<T> {
    if |items| == 0 then []
    else
      var n := |items| - 1;
      var earlier := FromKeys(items[..n]);
      if items[n] in earlier then earlier else earlier + [items[n]]
  }

  /** Without a key function the result is the keyed version with each item
      as its own key. */
  lemma {:induction false} FromKeysIsIdentityKey<T>(items: seq<T>)
    ensures FromKeys(items) == FirstOnly(items, (x: T) => x)
    ensures forall x :: x in FromKeys(items) <==> x in KeysOf(items, (x: T) => x)
  {
    if |items| > 0 {
      var n := |items| - 1;
      FromKeysIsIdentityKey(items[..n]);
      FirstOnlyStep(items, (x: T) => x, n);
      assert items[..n + 1] == items;
    }
  }
}

=== FILE: duplicates.dfy ===
/** `find_duplicates_old` and `find_duplicates_new`: the items that occur
    more than once in a list, found by a quadratic pair scan and by a single
    pass with a seen-set. Both are specified against one reference: an item
    is a duplicate when it occurs at least twice. */
module Duplicates {
  import opened Seqs


  /** Splitting a list around position `i` splits the occurrence counts. */
  lemma CountAround<T>(items: seq<T>, i: nat)
    requires i < |items|
    ensures multiset(items)[items[i]] >= 2 <==> items[i] in items[..i] || items[i] in items[i + 1..]
  {
    assert items == items[..i] + [items[i]] + items[i + 1..];
  }

  /** The single pass as written: an item already seen goes into the
      duplicate set, otherwise into the seen set. Python then turns the set
      into a list in hash order, so the result is modelled as the set. */
  method FindDuplicatesNew<T(==)>(items: seq<T>) returns (duplicates: set<T>)
    ensures forall x :: x in duplicates <==> multiset(items)[x] >= 2
  {
    var seen: set<T> := {};
    duplicates := {};
    var i := 0;
    while i < |items|
      invariant 0 <= i <= |items|
      invariant forall x :: x in seen <==> multiset(items[..i])[x] >= 1
      invariant forall x :: x in duplicates <==> multiset(items[..i])[x] >= 2
    {
      assert items[..i + 1] == items[..i] + [items[i]];
      if items[i] in seen {
        duplicates := duplicates + {items[i]};
      } else {
        seen := seen + {items[i]};
      }
      i := i + 1;
    }
    assert items[..i] == items;
  }

  /** The pair scan as written: for each position, look for an equal item
      further on, and record it unless it is already recorded. The result
      lists each duplicate once. */
  method FindDuplicatesOld<T(==)>(items: seq<T>) returns (duplicates: seq<T>)
    ensures forall x :: x in duplicates <==> multiset(items)[x] >= 2
    ensures NoRepeats(duplicates)
  {
    duplicates := [];
    var i := 0;
    while i < |items|
      invariant 0 <= i <= |items|
      invariant forall x :: x in duplicates <==> x in items[..i] && multiset(items)[x] >= 2
      invariant NoRepeats(duplicates)
    {
      var j := i + 1;
      while j < |items|
        invariant i + 1 <= j <= |items|
        invariant forall x :: x in duplicates <==>
          (x in items[..i] && multiset(items)[x] >= 2) || (x == items[i] && x in items[i + 1..j])
        invariant NoRepeats(duplicates)
      {
        assert items[i + 1..j + 1] == items[i + 1..j] + [items[j]];
        if items[i] == items[j] && items[i] !in duplicates {
          duplicates := duplicates + [items[i]];
        }
        j := j + 1;
      }
      CountAround(items, i);
      assert items[..i + 1] == items[..i] + [items[i]];
      assert items[i + 1..j] == items[i + 1..];
      i := i + 1;
    }
    assert items[..i] == items;
  }
}

=== FILE: email.dfy ===
/** `validate_email`: the shape check `local@domain.tld`, built on Python's
    `str.split`. */
module Email {
  import opened Seqs

  /** Number of occurrences of `c` in `s`. */
  function CountChar(s: string, c: char): nat {
    if |s| == 0 then 0
    else (if s[0] == c then 1 else 0) + CountChar(s[1..], c)
  }

  /** Python's `s.split(c)` for a one-character separator: the pieces
      between consecutive separators, always at least one (possibly empty). */
  function Split(s: string, c: char): (parts: seq<string>)
    ensures |parts| == CountChar(s, c) + 1
  {
    if |s| == 0 then [""]
    else
      var rest := Split(s[1..], c);
      if s[0] == c then [""] + rest
      else [[s[0]] + rest[0]] + rest[1..]
  }

  /** Splitting loses nothing: joining the pieces back restores the string,
      and no piece contains the separator. */
  lemma {:induction false} SplitJoin(s: string, c: char)
    ensures JoinWith([c], Split(s, c)) == s
    ensures forall i :: 0 <= i < |Split(s, c)| ==> c !in Split(s, c)[i]
  {
    if |s| > 0 {
      SplitJoin(s[1..], c);
      var rest := Split(s[1..], c);
      if s[0] == c {
        assert Split(s, c) == [""] + rest;
        assert Split(s, c)[1..] == rest;
      } else {
        var parts := Split(s, c);
        assert parts == [[s[0]] + rest[0]] + rest[1..];
        assert parts[1..] == rest[1..];
        if |rest| > 1 {
          assert JoinWith([c], rest) == rest[0] + [c] + JoinWith([c], rest[1..]);
        }
        assert s == [s[0]] + s[1..];
        forall i | 0 <= i < |parts|
          ensures c !in parts[i]
        {
          if i > 0 {
            assert parts[i] == rest[i];
          }
        }
      }
    }
  }

  /** A string with exactly one separator, at index `k`, splits into the
      text before it and the text after it. */
  lemma {:induction false} SplitAtOnly(s: string, c: char, k: nat)
    requires k < |s| && s[k] == c
    requires c !in s[..k] && c !in s[k + 1..]
    ensures Split(s, c) == [s[..k], s[k + 1..]]
  {
    if k == 0 {
      NoSeparator(s[1..], c);
    } else {
      assert s[1..][..k - 1] == s[..k][1..];
      assert s[1..][k..] == s[k + 1..];
      SplitAtOnly(s[1..], c, k - 1);
      assert s[..k] == [s[0]] + s[1..][..k - 1];
    }
  }

  /** Splitting a string free of the separator gives the string itself. */
  lemma {:induction false} NoSeparator(s: string, c: char)
    requires c !in s
    ensures Split(s, c) == [s]
  {
    if |s| > 0 {
      assert c !in s[1..];
      NoSeparator(s[1..], c);
      assert s == [s[0]] + s[1..];
    }
  }

  /** The validator as written: empty or '@'-free strings fail, the split
      must give exactly two non-empty parts, and the domain needs a '.'. */
  function ValidateEmail(email: string): bool {
    if |email| == 0 || '@' !in email then false
    else
      var parts := Split(email, '@');
      if |parts| != 2 then false
      else
        var local, domain := parts[0], parts[1];
        if |local| == 0 || |domain| == 0 then false
        else '.' in domain
  }

  /** The shape the validator accepts, stated directly on the string: one
      '@', at an index `k` with text on both sides, and a '.' after it. */
  ghost predicate WellShaped(email: string) {
    exists k :: 0 < k < |email| - 1 && email[k] == '@'
      && '@' !in email[..k] && '@' !in email[k + 1..] && '.' in email[k + 1..]
  }

  /** `validate_email` accepts exactly the well-shaped strings. */
  lemma ValidateEmailIff(email: string)
    ensures ValidateEmail(email) <==> WellShaped(email)
  {
    if ValidateEmail(email) {
      var parts := Split(email, '@');
      SplitJoin(email, '@');
      assert email == parts[0] + ['@'] + parts[1];
      var k := |parts[0]|;
      assert email[..k] == parts[0];
      assert email[k + 1..] == parts[1];
      assert email[k] == '@';
      assert 0 < k < |email| - 1;
    }
    if WellShaped(email) {
      var k :| 0 < k < |email| - 1 && email[k] == '@'
        && '@' !in email[..k] && '@' !in email[k + 1..] && '.' in email[k + 1..];
      SplitAtOnly(email, '@', k);
    }
  }
}

=== FILE: fibonacci.dfy ===
/** `calculate_fibonacci`: the first `n` Fibonacci numbers, starting 0, 1. */
module Fibonacci {

  /** The mathematical Fibonacci sequence, the reference the generator is
      checked against. */
  function Fib(i: nat): nat {
    if i == 0 then 0
    else if i == 1 then 1
    else Fib(i - 1) + Fib(i - 2)
  }

  /** The generator as written: the two short cases answered directly, the
      rest built by appending the sum of the last two entries. A
      non-positive count gives the empty list. */
  method CalculateFibonacci(n: int) returns (fib: seq<int>)
    ensures n <= 0 ==> fib == []
    ensures n > 0 ==> |fib| == n && fib[0] == 0
    ensures n > 1 ==> fib[1] == 1
    ensures forall i :: 2 <= i < |fib| ==> fib[i] == fib[i - 1] + fib[i - 2]
    ensures forall i :: 0 <= i < |fib| ==> fib[i] == Fib(i)
  {
    if n <= 0 {
      return [];
    }
    assert Fib(0) == 0 && Fib(1) == 1;
    if n == 1 {
      return [0];
    }
    if n == 2 {
      return [0, 1];
    }
    fib := [0, 1];
    var i := 2;
    while i < n
      invariant 2 <= i <= n
      invariant |fib| == i
      invariant forall k {:trigger fib[k]} :: 0 <= k < i ==> fib[k] == Fib(k)
    {
      assert Fib(i) == Fib(i - 1) + Fib(i - 2);
      fib := fib + [fib[i - 1] + fib[i - 2]];
      i := i + 1;
    }
    FibRecurrence(fib);
  }

  /** A list that agrees with `Fib` everywhere satisfies the recurrence
      the generator's loop uses. */
  lemma FibRecurrence(fib: seq<int>)
    requires forall k :: 0 <= k < |fib| ==> fib[k] == Fib(k)
    ensures forall i :: 2 <= i < |fib| ==> fib[i] == fib[i - 1] + fib[i - 2]
  {
    forall i | 2 <= i < |fib|
      ensures fib[i] == fib[i - 1] + fib[i - 2]
    {
      assert fib[i] == Fib(i) == Fib(i - 1) + Fib(i - 2);
    }
  }
}

=== FILE: field_validation.dfy ===
/** `validate_required_fields` and `validate_numeric_range`. */
module FieldValidation {
  import opened Wrappers
  import opened Seqs

  /** The fixed start of the error message ("missing required fields: "). */
  const MissingPrefix: string := "缺少必需字段: "

  /** The required fields absent from the record, in the order required. */
  function MissingFields<V>(data: map<string, V>, required: seq<string>): (r: seq<string>)
    ensures |r| <= |required|
  {
    if |required| == 0 then []
    else (if required[0] !in data then [required[0]] else []) + MissingFields(data, required[1..])
  }

  /** A field is reported missing exactly when it is required and absent. */
  lemma {:induction false} MissingFieldsMembers<V>(data: map<string, V>, required: seq<string>)
    ensures forall f :: f in MissingFields(data, required) <==> f in required && f !in data
  {
    if |required| > 0 {
      MissingFieldsMembers(data, required[1..]);
      assert required == [required[0]] + required[1..];
    }
  }

  /** The check as written: `(True, None)` when every required field is a
      key of the record, otherwise `False` with a message naming the
      missing fields in order. */
  function ValidateRequiredFields<V>(data: map<string, V>, required: seq<string>): (r: (bool, Option<string>))
    ensures r.0 <==> forall f :: f in required ==> f in data
    ensures r.0 ==> r.1 == None
    ensures !r.0 ==> r.1 == Some(MissingPrefix + JoinWith(", ", MissingFields(data, required)))
  {
    var missing := MissingFields(data, required);
    MissingFieldsMembers(data, required);
    if |missing| > 0 then
      assert missing[0] in missing;
      (false, Some(MissingPrefix + JoinWith(", ", missing)))
    else (true, None)
  }

  /** The message lists missing fields in the order they were required: two
      missing fields, the first required before the second, appear in that
      order. */
  lemma {:induction false} MissingFieldsOrdered<V>(data: map<string, V>, required: seq<string>, i: nat, j: nat)
    requires i < j < |required|
    requires required[i] !in data && required[j] !in data
    ensures exists a, b :: 0 <= a < b < |MissingFields(data, required)|
                           && MissingFields(data, required)[a] == required[i]
                           && MissingFields(data, required)[b] == required[j]
    decreases j
  {
    var m := MissingFields(data, required);
    var rest := MissingFields(data, required[1..]);
    var head := if required[0] !in data then [required[0]] else [];
    assert m == head + rest;
    assert required[j] == required[1..][j - 1];
    if i == 0 {
      MissingFieldsMembers(data, required[1..]);
      assert required[j] in rest;
      var b :| 0 <= b < |rest| && rest[b] == required[j];
      assert m[0] == required[i] && m[b + 1] == required[j];
    } else {
      assert required[i] == required[1..][i - 1];
      MissingFieldsOrdered(data, required[1..], i - 1, j - 1);
      var a, b :| 0 <= a < b < |rest| && rest[a] == required[i] && rest[b] == required[j];
      assert m[|head| + a] == required[i] && m[|head| + b] == required[j];
    }
  }

  /** The range check as written: below a given minimum or above a given
      maximum fails; an absent bound does not constrain. */
  function ValidateNumericRange(value: real, minValue: Option<real>, maxValue: Option<real>): (r: bool)
    ensures r <==> (minValue.None? || minValue.value <= value) && (maxValue.None? || value <= maxValue.value)
  {
    if minValue.Some? && value < minValue.value then false
    else if maxValue.Some? && value > maxValue.value then false
    else true
  }
}

=== FILE: file_lock.dfy ===
/** `FileLock`: a context manager that takes a lock by creating a marker
    file and gives it up by removing the file. The filesystem is reduced to
    one fact, whether the marker file exists; logging is left out. */
module FileLock {
  import opened Wrappers

  /** What the lock sees: whether the marker file exists, and its own
      `locked` flag. */
  datatype Lock = Lock(markerExists: bool, locked: bool)

  /** `__enter__` raises when the marker is already there. */
  datatype LockError = AlreadyLocked

  /** A new lock object has not taken the lock, whatever the filesystem
      holds. */
  function New(markerExists: bool): (l: Lock)
    ensures !l.locked && l.markerExists == markerExists
  {
    Lock(markerExists, false)
  }

  /** `__enter__`: fails, changing nothing, when the marker exists;
      otherwise creates the marker and marks the lock as held. */
  function Enter(l: Lock): (r: Result<Lock, LockError>)
    ensures r.Failure? <==> l.markerExists
    ensures r.Success? ==> r.value.markerExists && r.value.locked
  {
    if l.markerExists then Failure(AlreadyLocked)
    else Success(Lock(true, true))
  }

  /** `__exit__`: removes the marker only when this object took the lock and
      the marker is still there. The `locked` flag is never cleared. The
      second component is the return value: the exception, if any, is never
      suppressed. */
  function Exit(l: Lock): (r: (Lock, bool))
    ensures !r.1
    ensures r.0.locked == l.locked
    ensures r.0.markerExists <==> l.markerExists && !l.locked
  {
    if l.locked && l.markerExists then (Lock(false, l.locked), false)
    else (l, false)
  }

  /** Within one `with` block: taking a lock that nobody holds succeeds, and
      on leaving the block the marker is gone however the body ended and
      whether or not something else removed the marker meanwhile. */
  lemma ScopedRelease(l: Lock, markerAfterBody: bool)
    requires !l.markerExists
    ensures Enter(l).Success?
    ensures var held := Enter(l).value;
      !Exit(Lock(markerAfterBody, held.locked)).0.markerExists
  {
  }

  /** A held lock cannot be taken again, by this object or another one
      looking at the same marker. */
  lemma NoDoubleAcquire(l: Lock, other: bool)
    requires Enter(l).Success?
    ensures Enter(Enter(l).value).Failure?
    ensures Enter(Lock(Enter(l).value.markerExists, other)).Failure?
  {
  }

  /** Leaving twice is the same as leaving once. */
  lemma ExitIdempotent(l: Lock)
    ensures Exit(Exit(l).0).0 == Exit(l).0
  {
  }

  /** A lock object that has not acquired leaves the marker alone on
      `__exit__`, so it never releases a lock someone else holds. */
  lemma UnheldExitKeepsMarker(l: Lock)
    requires !l.locked
    ensures Exit(l).0 == l
  {
  }
}

=== FILE: flatten.dfy ===
/** `flatten_list`: the non-list items of an arbitrarily nested list, left
    to right. A Python list whose items are lists or other values is a
    sequence of `Nested` trees. */
module Flatten {

  /** An item of a nested list: a plain value, or a list of further items. */
  datatype Nested<T> = Leaf(value: T) | Nest(items: seq<Nested<T>>)

  /** The loop as written: a list item is flattened recursively and its
      values appended (`extend`); any other item is appended as is. */
  function FlattenList<T>(xs: seq<Nested<T>>): seq<T>
    decreases xs
  {
    if |xs| == 0 then []
    else
      (match xs[0]
         case Leaf(v) => [v]
         case Nest(inner) => FlattenList(inner))
      + FlattenList(xs[1..])
  }

  /** Reference: the number of plain values anywhere in the list. */
  function LeafCount<T>(xs: seq<Nested<T>>): nat
    decreases xs
  {
    if |xs| == 0 then 0
    else
      (match xs[0]
         case Leaf(_) => 1
         case Nest(inner) => LeafCount(inner))
      + LeafCount(xs[1..])
  }

  /** A flat list, as nested items with no list among them. */
  function Lift<T>(vs: seq<T>): (r: seq<Nested<T>>)
    ensures |r| == |vs|
    ensures forall i :: 0 <= i < |r| ==> r[i] == Leaf(vs[i])
  {
    if |vs| == 0 then [] else [Leaf(vs[0])] + Lift(vs[1..])
  }

  /** Flattening respects concatenation: the values of `xs` come before the
      values of `ys`. */
  lemma {:induction false} FlattenAppend<T>(xs: seq<Nested<T>>, ys: seq<Nested<T>>)
    ensures FlattenList(xs + ys) == FlattenList(xs) + FlattenList(ys)
    decreases |xs|
  {
    if |xs| > 0 {
      assert (xs + ys)[0] == xs[0];
      assert (xs + ys)[1..] == xs[1..] + ys;
      FlattenAppend(xs[1..], ys);
      var head := match xs[0] case Leaf(v) => [v] case Nest(inner) => FlattenList(inner);
      assert FlattenList(xs) == head + FlattenList(xs[1..]);
      assert FlattenList(xs + ys) == head + (FlattenList(xs[1..]) + FlattenList(ys));
    } else {
      assert xs + ys == ys;
    }
  }

  /** A nested list contributes its values in place: wrapping items in one
      more level of list changes nothing. */
  lemma NestTransparent<T>(xs: seq<Nested<T>>)
    ensures FlattenList([Nest(xs)]) == FlattenList(xs)
  {
    assert [Nest(xs)][1..] == [];
  }

  /** A list with no nested lists flattens to its own values, in order. */
  lemma {:induction false} FlattenFlat<T>(vs: seq<T>)
    ensures FlattenList(Lift(vs)) == vs
  {
    if |vs| > 0 {
      FlattenFlat(vs[1..]);
      assert Lift(vs)[1..] == Lift(vs[1..]);
    }
  }

  /** No value is lost or invented: the output has exactly one entry per
      plain value of the input. */
  lemma {:induction false} FlattenLength<T>(xs: seq<Nested<T>>)
    ensures |FlattenList(xs)| == LeafCount(xs)
    decreases xs
  {
    if |xs| > 0 {
      match xs[0] {
        case Leaf(_) =>
        case Nest(inner) => FlattenLength(inner);
      }
      FlattenLength(xs[1..]);
    }
  }

  /** Flattening is idempotent: the output holds no nested list, so
      flattening it again gives it back. */
  lemma FlattenIdempotent<T>(xs: seq<Nested<T>>)
    ensures FlattenList(Lift(FlattenList(xs))) == FlattenList(xs)
  {
    FlattenFlat(FlattenList(xs));
  }
}

=== FILE: grouping.dfy ===
/** `group_by_key`: split a list of dictionaries into groups by the value
    each has under a given key. */
module Grouping {
  import opened Wrappers
  import opened Seqs
  import Dedup

  /** A Python dictionary used as a record; a value `None` is Python's
      `None`. */
  type Record<V> = map<string, Option<V>>

  /** `item.get(key)`: a record without the key and a record holding `None`
      under it both go to the `None` group. */
  function GroupKey<V>(item: Record<V>, key: string): (r: Option<V>)
    ensures r.Some? <==> key in item && item[key].Some?
    ensures r.Some? ==> r == item[key]
  {
    if key in item then item[key] else None
  }

  /** The group value of each record, in input order. */
  function GroupValues<V>(items: seq<Record<V>>, key: string): (r: seq<Option<V>>)
    ensures |r| == |items|
    ensures forall i :: 0 <= i < |items| ==> r[i] == GroupKey(items[i], key)
  {
    seq(|items|, i requires 0 <= i < |items| => GroupKey(items[i], key))
  }

  /** The result dictionary: its groups, and its keys in insertion order
      (the order in which each group value was first met). */
  datatype Grouped<V(==)> = Grouped(order: seq<Option<V>>, groups: map<Option<V>, seq<Record<V>>>)

  /** Reference: the records of `items` whose group value is `k`, in input
      order. */
  function Members<V(==)>(items: seq<Record<V>>, key: string, k: Option<V>): (r: seq<Record<V>>)
    ensures |r| <= |items|
  {
    if |items| == 0 then []
    else
      var last := items[|items| - 1];
      Members(items[..|items| - 1], key, k) + (if GroupKey(last, key) == k then [last] else [])
  }

  /** Sum of the group sizes, taken in the order `order`. */
  function SumSizes<K(==), T>(order: seq<K>, groups: map<K, seq<T>>): nat
    requires forall k :: k in order ==> k in groups
  {
    if |order| == 0 then 0 else |groups[order[0]]| + SumSizes(order[1..], groups)
  }

  lemma {:induction false} SumSizesAppend<K, T>(order: seq<K>, groups: map<K, seq<T>>, k: K)
    requires forall j :: j in order ==> j in groups
    requires k in groups
    ensures SumSizes(order + [k], groups) == SumSizes(order, groups) + |groups[k]|
  {
    if |order| > 0 {
      assert (order + [k])[1..] == order[1..] + [k];
      SumSizesAppend(order[1..], groups, k);
    }
  }

  /** Changing a group that `order` does not list leaves the sum alone;
      changing one it lists once shifts the sum by the change in size. */
  lemma {:induction false} SumSizesUpdate<K, T>(order: seq<K>, groups: map<K, seq<T>>, k: K, v: seq<T>)
    requires forall j :: j in order ==> j in groups
    requires NoRepeats(order)
    requires k in groups || k !in order
    ensures SumSizes(order, groups[k := v]) + (if k in order then |groups[k]| else 0)
            == SumSizes(order, groups) + (if k in order then |v| else 0)
  {
    if |order| > 0 {
      assert NoRepeats(order[1..]) by {
        forall a, b | 0 <= a < b < |order[1..]|
          ensures order[1..][a] != order[1..][b]
        {
          assert order[1..][a] == order[a + 1] && order[1..][b] == order[b + 1];
        }
      }
      if order[0] == k {
        assert k !in order[1..] by {
          forall b | 0 <= b < |order[1..]|
            ensures order[1..][b] != k
          {
            assert order[1..][b] == order[b + 1];
          }
        }
      }
      SumSizesUpdate(order[1..], groups, k, v);
    }
  }

  /** What the loop keeps true about the groups after the first `n`
      records: each group holds exactly its members so far, and the groups
      opened are those of the values met. */
  ghost predicate GroupsUpTo<V(!new)>(items: seq<Record<V>>, key: string, n: nat,
                                      grouped: map<Option<V>, seq<Record<V>>>)
    requires n <= |items|
  {
    && (forall k :: k in grouped ==> grouped[k] == Members(items[..n], key, k))
    && (forall k :: k in grouped <==> |Members(items[..n], key, k)| > 0)
  }

  /** What the loop keeps true about the key order: it lists each opened
      group once, and the sizes of the groups add up to `n`. */
  ghost predicate OrderUpTo<V(!new)>(n: nat, order: seq<Option<V>>, grouped: map<Option<V>, seq<Record<V>>>) {
    && (forall k :: k in order <==> k in grouped)
    && NoRepeats(order)
    && SumSizes(order, grouped) == n
  }

  /** One more record joins the members of its own value and no others. */
  lemma MembersStep<V>(items: seq<Record<V>>, key: string, n: nat, k: Option<V>)
    requires n < |items|
    ensures Members(items[..n + 1], key, k)
            == Members(items[..n], key, k) + (if GroupKey(items[n], key) == k then [items[n]] else [])
  {
    assert items[..n + 1][..n] == items[..n];
  }

  /** Appending record `n` to its group keeps `GroupsUpTo`. */
  lemma GroupsStep<V(!new)>(items: seq<Record<V>>, key: string, n: nat,
                            grouped: map<Option<V>, seq<Record<V>>>)
    requires n < |items|
    requires GroupsUpTo(items, key, n, grouped)
    ensures var k := GroupKey(items[n], key);
      k in grouped ==> GroupsUpTo(items, key, n + 1, grouped[k := grouped[k] + [items[n]]])
    ensures var k := GroupKey(items[n], key);
      k !in grouped ==> GroupsUpTo(items, key, n + 1, grouped[k := [items[n]]])
  {
    var groupKey := GroupKey(items[n], key);
    if groupKey in grouped {
      GroupsGrow(items, key, n, grouped, grouped[groupKey] + [items[n]]);
    } else {
      GroupsGrow(items, key, n, grouped, [items[n]]);
    }
  }

  /** The step of `GroupsStep` with the new contents `v` of the record's
      group given: `v` is that group's old contents (none if it is new)
      followed by the record. */
  lemma GroupsGrow<V(!new)>(items: seq<Record<V>>, key: string, n: nat,
                            grouped: map<Option<V>, seq<Record<V>>>, v: seq<Record<V>>)
    requires n < |items|
    requires GroupsUpTo(items, key, n, grouped)
    requires v == (if GroupKey(items[n], key) in grouped then grouped[GroupKey(items[n], key)] else []) + [items[n]]
    ensures GroupsUpTo(items, key, n + 1, grouped[GroupKey(items[n], key) := v])
  {
    var groupKey := GroupKey(items[n], key);
    var grouped' := grouped[groupKey := v];
    forall k
      ensures k in grouped' <==> |Members(items[..n + 1], key, k)| > 0
      ensures k in grouped' ==> grouped'[k] == Members(items[..n + 1], key, k)
    {
      MembersStep(items, key, n, k);
    }
  }

  /** Opening a group (if new) and growing it by one keeps `OrderUpTo`. */
  lemma OrderStep<V(!new)>(n: nat, order: seq<Option<V>>, grouped: map<Option<V>, seq<Record<V>>>,
                           k: Option<V>, item: Record<V>)
    requires OrderUpTo(n, order, grouped)
    ensures k in grouped ==> OrderUpTo(n + 1, order, grouped[k := grouped[k] + [item]])
    ensures k !in grouped ==> OrderUpTo(n + 1, order + [k], grouped[k := [item]])
  {
    if k in grouped {
      SumSizesUpdate(order, grouped, k, grouped[k] + [item]);
    } else {
      SumSizesUpdate(order, grouped, k, [item]);
      SumSizesAppend(order, grouped[k := [item]], k);
      assert NoRepeats(order + [k]) by {
        forall a, b | 0 <= a < b < |order + [k]|
          ensures (order + [k])[a] != (order + [k])[b]
        {
          if b == |order| {
            assert (order + [k])[a] == order[a];
          } else {
            assert (order + [k])[a] == order[a] && (order + [k])[b] == order[b];
          }
        }
      }
    }
  }

  /** What the loop keeps true about the key order: it is the values of
      the first `n` records in the order they were first met. */
  ghost predicate FirstMetUpTo<V>(items: seq<Record<V>>, key: string, n: nat, order: seq<Option<V>>) {
    n <= |items| && order == Dedup.FromKeys(GroupValues(items[..n], key))
  }

  /** Record `n` extends the first-met order by its own value exactly when
      that value was not met before. */
  lemma FirstMetStep<V>(items: seq<Record<V>>, key: string, n: nat, order: seq<Option<V>>)
    requires n < |items|
    requires FirstMetUpTo(items, key, n, order)
    ensures var k := GroupKey(items[n], key);
      k in order ==> FirstMetUpTo(items, key, n + 1, order)
    ensures var k := GroupKey(items[n], key);
      k !in order ==> FirstMetUpTo(items, key, n + 1, order + [k])
  {
    var values := GroupValues(items[..n + 1], key);
    assert values[..n] == GroupValues(items[..n], key);
  }

  /** The loop as written: look up the record's group value, open a new
      group for a value not met before, and append the record to its group.
      Every record lands in the group of its value, groups keep input order,
      each value present has a group and no other does, the keys are in the
      order their values were first met, and the group sizes add up to the
      number of records. */
  method GroupByKey<V(==,!new)>(items: seq<Record<V>>, key: string) returns (g: Grouped<V>)
    ensures forall k :: k in g.order <==> k in g.groups
    ensures NoRepeats(g.order)
    ensures g.order == Dedup.FromKeys(GroupValues(items, key))
    ensures forall k :: k in g.groups ==> g.groups[k] == Members(items, key, k)
    ensures forall k :: k in g.groups <==> |Members(items, key, k)| > 0
    ensures SumSizes(g.order, g.groups) == |items|
  {
    var order: seq<Option<V>> := [];
    var grouped: map<Option<V>, seq<Record<V>>> := map[];
    var i := 0;
    while i < |items|
      invariant 0 <= i <= |items|
      invariant GroupsUpTo(items, key, i, grouped)
      invariant OrderUpTo(i, order, grouped)
      invariant FirstMetUpTo(items, key, i, order)
    {
      var groupKey := GroupKey(items[i], key);
      GroupsStep(items, key, i, grouped);
      OrderStep(i, order, grouped, groupKey, items[i]);
      FirstMetStep(items, key, i, order);
      if groupKey in grouped {
        grouped := grouped[groupKey := grouped[groupKey] + [items[i]]];
      } else {
        grouped := grouped[groupKey := [items[i]]];
        order := order + [groupKey];
      }
      i := i + 1;
    }
    assert items[..i] == items;
    g := Grouped(order, grouped);
  }
}

=== FILE: max_number.dfy ===
/** `find_max_number`: the largest entry of a list, `None` for an empty one. */
module MaxNumber {
  import opened Wrappers

  /** The scan as written: start from the first entry and replace the
      running maximum by any strictly larger entry. */
  method FindMaxNumber(numbers: seq<int>) returns (r: Option<int>)
    ensures r.None? <==> |numbers| == 0
    ensures r.Some? ==> r.value in numbers
    ensures r.Some? ==> forall i :: 0 <= i < |numbers| ==> numbers[i] <= r.value
  {
    if |numbers| == 0 {
      return None;
    }
    var maxNum := numbers[0];
    var i := 0;
    while i < |numbers|
      invariant 0 <= i <= |numbers|
      invariant maxNum in numbers
      invariant forall k :: 0 <= k < i ==> numbers[k] <= maxNum
    {
      if numbers[i] > maxNum {
        maxNum := numbers[i];
      }
      i := i + 1;
    }
    return Some(maxNum);
  }
}

=== FILE: process_data.dfy ===
/** `process_data_old_way` and `process_data_new_way`: keep the active
    records and project each to its id, its name and twice its value. */
module ProcessData {
  import opened Wrappers

  /** An input dictionary. Each key may be missing (`None`). */
  datatype Item = Item(id: Option<int>, name: Option<string>, status: Option<string>, value: Option<int>)

  /** An output dictionary `{'id', 'name', 'value'}`. */
  datatype Processed = Processed(id: int, name: string, value: int)

  /** `KeyError` for an active record without an `id` or `name` key. */
  datatype KeyError = MissingKey(key: string)

  /** `item.get('status') == 'active'`. */
  predicate IsActive(item: Item) {
    item.status == Some("active")
  }

  /** Reference: the active records, in input order. Every record kept is
      an active record of the input, and every active record is kept. */
  function ActiveOnly(data: seq<Item>): (r: seq<Item>)
    ensures forall i :: 0 <= i < |r| ==> IsActive(r[i]) && r[i] in data
    ensures forall i :: 0 <= i < |data| && IsActive(data[i]) ==> data[i] in r
    ensures |r| <= |data|
  {
    if |data| == 0 then []
    else (if IsActive(data[0]) then [data[0]] else []) + ActiveOnly(data[1..])
  }

  /** Filtering keeps order: the active records of a concatenation are
      those of the first part followed by those of the second, so each
      record keeps its place relative to the others. */
  lemma {:induction false} ActiveOnlyAppend(a: seq<Item>, b: seq<Item>)
    ensures ActiveOnly(a + b) == ActiveOnly(a) + ActiveOnly(b)
  {
    if |a| == 0 {
      assert a + b == b;
    } else {
      assert (a + b)[1..] == a[1..] + b;
      ActiveOnlyAppend(a[1..], b);
    }
  }

  /** Reference: the projection of one record that has both keys. */
  function Project(item: Item): Processed
    requires item.id.Some? && item.name.Some?
  {
    Processed(item.id.value, item.name.value, item.value.GetOr(0) * 2)
  }

  /** The comprehension as written. Records are visited in order, so an
      active record without `id` raises first, then one without `name`. */
  function ProcessDataNewWay(data: seq<Item>): Result<seq<Processed>, KeyError> {
    if |data| == 0 then Success([])
    else
      var item := data[0];
      if !IsActive(item) then ProcessDataNewWay(data[1..])
      else if item.id.None? then Failure(MissingKey("id"))
      else if item.name.None? then Failure(MissingKey("name"))
      else
        match ProcessDataNewWay(data[1..])
        case Success(rest) => Success([Project(item)] + rest)
        case Failure(e) => Failure(e)
  }

  /** Every active record has both keys the projection reads. */
  ghost predicate ActiveComplete(data: seq<Item>) {
    forall item :: item in data && IsActive(item) ==> item.id.Some? && item.name.Some?
  }

  /** The projection of each record of an all-complete list. */
  function ProjectAll(items: seq<Item>): (r: seq<Processed>)
    requires forall i :: 0 <= i < |items| ==> items[i].id.Some? && items[i].name.Some?
    ensures |r| == |items|
  {
    if |items| == 0 then [] else [Project(items[0])] + ProjectAll(items[1..])
  }

  /** The new way fails exactly when some active record lacks a key, and
      otherwise returns the projections of the active records, in order: one
      output per active record, with its id and name and doubled value. */
  lemma {:induction false} ProcessDataNewWaySpec(data: seq<Item>)
    ensures ProcessDataNewWay(data).Success? <==> ActiveComplete(data)
    ensures ActiveComplete(data) ==>
              ProcessDataNewWay(data) == Success(ProjectAll(ActiveOnly(data)))
  {
    if |data| > 0 {
      ProcessDataNewWaySpec(data[1..]);
      assert ActiveComplete(data) <==>
        (IsActive(data[0]) ==> data[0].id.Some? && data[0].name.Some?) && ActiveComplete(data[1..]) by {
        assert data == [data[0]] + data[1..];
      }
      if !IsActive(data[0]) {
        assert ActiveOnly(data) == ActiveOnly(data[1..]);
      } else if ActiveComplete(data) {
        assert ActiveOnly(data) == [data[0]] + ActiveOnly(data[1..]);
        assert ActiveOnly(data)[0] == data[0];
        assert ActiveOnly(data)[1..] == ActiveOnly(data[1..]);
      }
    }
  }

  /** `result ++ rest` on a successful `rest`, the error otherwise. */
  function Prepend(done: seq<Processed>, rest: Result<seq<Processed>, KeyError>): Result<seq<Processed>, KeyError> {
    match rest
    case Success(tail) => Success(done + tail)
    case Failure(e) => Failure(e)
  }

  /** The index loop as written, with the `KeyError` of the first failing
      record. It agrees with the new way on every input, errors included. */
  method ProcessDataOldWay(data: seq<Item>) returns (r: Result<seq<Processed>, KeyError>)
    ensures r == ProcessDataNewWay(data)
  {
    var result: seq<Processed> := [];
    var i := 0;
    assert data[0..] == data;
    match ProcessDataNewWay(data) {
      case Success(all) => assert [] + all == all;
      case Failure(_) =>
    }
    while i < |data|
      invariant 0 <= i <= |data|
      invariant ProcessDataNewWay(data) == Prepend(result, ProcessDataNewWay(data[i..]))
    {
      var item := data[i];
      assert data[i..][1..] == data[i + 1..];
      if item.status == Some("active") {
        if item.id.None? {
          return Failure(MissingKey("id"));
        }
        if item.name.None? {
          return Failure(MissingKey("name"));
        }
        var newItem := Processed(item.id.value, item.name.value, item.value.GetOr(0) * 2);
        assert newItem == Project(item);
        match ProcessDataNewWay(data[i + 1..]) {
          case Success(rest) =>
            assert result + ([newItem] + rest) == (result + [newItem]) + rest;
          case Failure(_) =>
        }
        result := result + [newItem];
      }
      i := i + 1;
    }
    assert data[i..] == [];
    assert result + [] == result;
    return Success(result);
  }
}

=== FILE: sanitize.dfy ===
/** `sanitize_filename`: every character unsafe in a file name becomes '_',
    then surrounding whitespace is stripped. */
module Sanitize {

  /** The characters replaced, in the order the source replaces them. */
  const UnsafeChars: seq<char> := ['/', '\\', ':', '*', '?', '"', '<', '>', '|']

  /** What Python's `str.strip()` removes: the characters `str.isspace()`
      accepts. */
  predicate IsSpace(c: char) {
    || c == ' ' || c == '\t' || c == '\n' || c == '\r'
    || c == '\U{000B}' || c == '\U{000C}'
    || ('\U{001C}' <= c <= '\U{001F}')
    || c == '\U{0085}' || c == '\U{00A0}' || c == '\U{1680}'
    || ('\U{2000}' <= c <= '\U{200A}')
    || c == '\U{2028}' || c == '\U{2029}' || c == '\U{202F}' || c == '\U{205F}' || c == '\U{3000}'
  }

  /** `s.replace(c, d)` for single characters. */
  function ReplaceChar(s: string, c: char, d: char): (r: string)
    ensures |r| == |s|
    ensures forall i :: 0 <= i < |s| ==> r[i] == (if s[i] == c then d else s[i])
  {
    if |s| == 0 then ""
    else [if s[0] == c then d else s[0]] + ReplaceChar(s[1..], c, d)
  }

  /** The replacement loop: `s.replace(c, '_')` for each `c` of `chars` in turn. */
  function ReplaceEach(s: string, chars: seq<char>): string
    decreases |chars|
  {
    if |chars| == 0 then s
    else ReplaceEach(ReplaceChar(s, chars[0], '_'), chars[1..])
  }

  /** The loop has the effect of one pass that turns every character of
      `chars` into '_' and keeps every other character. */
  lemma {:induction false} ReplaceEachIsOnePass(s: string, chars: seq<char>)
    ensures |ReplaceEach(s, chars)| == |s|
    ensures forall i :: 0 <= i < |s| ==>
              ReplaceEach(s, chars)[i] == (if s[i] in chars then '_' else s[i])
    decreases |chars|
  {
    if |chars| > 0 {
      var s' := ReplaceChar(s, chars[0], '_');
      ReplaceEachIsOnePass(s', chars[1..]);
      forall i | 0 <= i < |s|
        ensures ReplaceEach(s, chars)[i] == (if s[i] in chars then '_' else s[i])
      {
        assert chars == [chars[0]] + chars[1..];
      }
    }
  }

  /** `lstrip()`: drops leading whitespace and nothing else. */
  function TrimLeft(s: string): (r: string)
    ensures |r| <= |s| && r == s[|s| - |r|..]
    ensures forall i :: 0 <= i < |s| - |r| ==> IsSpace(s[i])
    ensures |r| == 0 || !IsSpace(r[0])
  {
    if |s| > 0 && IsSpace(s[0]) then TrimLeft(s[1..]) else s
  }

  /** `rstrip()`: drops trailing whitespace and nothing else. */
  function TrimRight(s: string): (r: string)
    ensures |r| <= |s| && r == s[..|r|]
    ensures forall i :: |r| <= i < |s| ==> IsSpace(s[i])
    ensures |r| == 0 || !IsSpace(r[|r| - 1])
  {
    if |s| > 0 && IsSpace(s[|s| - 1]) then TrimRight(s[..|s| - 1]) else s
  }

  /** `strip()`. */
  function Strip(s: string): string {
    TrimRight(TrimLeft(s))
  }

  /** No character of `s` is unsafe. */
  predicate IsSafe(s: string) {
    forall i :: 0 <= i < |s| ==> !IsUnsafe(s[i])
  }

  /** Membership in `UnsafeChars`, spelled out. */
  predicate IsUnsafe(c: char) {
    c == '/' || c == '\\' || c == ':' || c == '*' || c == '?' || c == '"' || c == '<' || c == '>' || c == '|'
  }

  /** The replacement loop over the unsafe characters: each unsafe
      character becomes '_', every other character stays where it was, so
      no unsafe character is left. */
  function ReplaceUnsafe(s: string): (r: string)
    ensures |r| == |s|
    ensures forall i :: 0 <= i < |s| ==> r[i] == if IsUnsafe(s[i]) then '_' else s[i]
    ensures IsSafe(r)
  {
    var r := ReplaceEach(s, UnsafeChars);
    assert |r| == |s| && forall i :: 0 <= i < |s| ==> r[i] == if IsUnsafe(s[i]) then '_' else s[i] by {
      ReplaceEachIsOnePass(s, UnsafeChars);
      forall i | 0 <= i < |s|
        ensures r[i] == if IsUnsafe(s[i]) then '_' else s[i]
      {
        UnsafeCharsSpelled(s[i]);
      }
    }
    r
  }

  /** `IsUnsafe` is membership in `UnsafeChars`. */
  lemma UnsafeCharsSpelled(c: char)
    ensures c in UnsafeChars <==> IsUnsafe(c)
  {
  }

  /** Where `strip()`'s result starts in its argument. */
  function StripStart(s: string): nat
    ensures StripStart(s) <= |s|
  {
    |s| - |TrimLeft(s)|
  }

  /** `r` is the slice of `s` starting at `a`, everything of `s` cut off
      before and after it is whitespace, and `r` itself neither starts nor
      ends with whitespace. */
  predicate TrimmedSlice(s: string, a: int, r: string) {
    && 0 <= a && a + |r| <= |s|
    && r == s[a..a + |r|]
    && (forall i :: 0 <= i < a ==> IsSpace(s[i]))
    && (forall i :: a + |r| <= i < |s| ==> IsSpace(s[i]))
    && (|r| == 0 || (!IsSpace(r[0]) && !IsSpace(r[|r| - 1])))
  }

  /** `TrimmedSlice` pins the result down: two trimmed slices of the same
      text are equal, so it describes `strip()` completely. */
  lemma TrimmedSliceUnique(s: string, a: int, r: string, b: int, q: string)
    requires TrimmedSlice(s, a, r) && TrimmedSlice(s, b, q)
    ensures r == q
  {
    if |r| > 0 && |q| > 0 {
      assert s[a] == r[0] && s[b] == q[0];
      assert a == b;
      assert s[a + |r| - 1] == r[|r| - 1] && s[b + |q| - 1] == q[|q| - 1];
      assert |r| == |q|;
    }
  }

  /** `strip()` keeps the trimmed slice starting at `StripStart(s)`: only
      whitespace is cut off, and none is left at either end. */
  lemma StripIsSlice(s: string)
    ensures TrimmedSlice(s, StripStart(s), Strip(s))
  {
    StripSliceAt(s);
    StripTailSpace(s);
  }

  /** `strip()` keeps the slice of its argument starting at `StripStart(s)`. */
  lemma StripSliceAt(s: string)
    ensures StripStart(s) + |Strip(s)| <= |s|
    ensures Strip(s) == s[StripStart(s)..StripStart(s) + |Strip(s)|]
  {
    var left := TrimLeft(s);
    var r := TrimRight(left);
    var a := |s| - |left|;
    assert left == s[a..];
    assert r == left[..|r|];
    assert left[..|r|] == s[a..a + |r|];
  }

  /** Everything `strip()` cuts off after the slice it keeps is whitespace. */
  lemma StripTailSpace(s: string)
    ensures forall i :: StripStart(s) + |Strip(s)| <= i < |s| ==> IsSpace(s[i])
  {
    var left := TrimLeft(s);
    var a := |s| - |left|;
    var r := TrimRight(left);
    assert Strip(s) == r && StripStart(s) == a;
    forall i | a + |r| <= i < |s|
      ensures IsSpace(s[i])
    {
      assert s[i] == left[i - a];
    }
  }

  /** A slice of a safe string is safe. */
  lemma SliceSafe(s: string, a: nat, b: nat)
    requires IsSafe(s) && a <= b <= |s|
    ensures IsSafe(s[a..b])
  {
    assert forall i :: 0 <= i < b - a ==> s[a..b][i] == s[a + i];
  }

  /** Stripping a safe text keeps it safe, and keeps its trimmed slice. */
  lemma StripSafe(s: string)
    requires IsSafe(s)
    ensures IsSafe(Strip(s))
    ensures TrimmedSlice(s, StripStart(s), Strip(s))
  {
    var a := StripStart(s);
    StripIsSlice(s);
    SliceSafe(s, a, a + |Strip(s)|);
  }

  /** The sanitiser as written: the replacement loop, then `strip()`. The
      result contains no unsafe character and is the replaced name with
      only whitespace taken off its ends and none left there. */
  function SanitizeFilename(filename: string): (r: string)
    ensures IsSafe(r)
    ensures TrimmedSlice(ReplaceUnsafe(filename), StripStart(ReplaceUnsafe(filename)), r)
  {
    StripSafe(ReplaceUnsafe(filename));
    Strip(ReplaceUnsafe(filename))
  }

  /** Text that is already stripped is left alone by `strip()`. */
  lemma StripStripped(s: string)
    requires |s| == 0 || (!IsSpace(s[0]) && !IsSpace(s[|s| - 1]))
    ensures Strip(s) == s
  {
  }

  /** Text without unsafe characters is left alone by the replacement loop. */
  lemma ReplaceUnsafeSafe(s: string)
    requires IsSafe(s)
    ensures ReplaceUnsafe(s) == s
  {
    ReplaceEachIsOnePass(s, UnsafeChars);
  }

  /** Sanitising is idempotent: a sanitised name sanitises to itself. */
  lemma SanitizeIdempotent(filename: string)
    ensures SanitizeFilename(SanitizeFilename(filename)) == SanitizeFilename(filename)
  {
    var once := SanitizeFilename(filename);
    ReplaceUnsafeSafe(once);
    StripStripped(once);
  }
}

=== FILE: seqs.dfy ===
/** Sequence helpers shared by several modules. */
module Seqs {

  /** No element of `s` appears at two positions. */
  ghost predicate NoRepeats<T>(s: seq<T>) {
    forall a, b :: 0 <= a < b < |s| ==> s[a] != s[b]
  }

  /** Python's `sep.join(parts)`: the parts with `sep` between neighbours,
      and "" for no parts. */
  function JoinWith(sep: string, parts: seq<string>): string {
    if |parts| == 0 then ""
    else if |parts| == 1 then parts[0]
    else parts[0] + sep + JoinWith(sep, parts[1..])
  }
}

=== FILE: truncate.dfy ===
/** `truncate_string`: shorten a text to a maximum length, marking the cut
    with a suffix ("..." by default). */
module Truncate {

  const DefaultSuffix: string := "..."

  /** Python's `s[:stop]`: a negative `stop` counts from the end, and both
      ends are clamped to the string. */
  function PrefixTo(s: string, stop: int): (r: string)
    ensures r <= s
    ensures 0 <= stop <= |s| ==> |r| == stop
    ensures stop > |s| ==> r == s
    ensures stop < 0 ==> |r| == |s| - (if -stop <= |s| then -stop else |s|)
  {
    if stop >= 0 then (if stop <= |s| then s[..stop] else s)
    else if |s| + stop >= 0 then s[..|s| + stop]
    else ""
  }

  /** The truncation as written: a text that fits is returned as is,
      otherwise `text[:max_length - len(suffix)] + suffix`. */
  function TruncateString(text: string, maxLength: int, suffix: string): (r: string)
    ensures |text| <= maxLength ==> r == text
    ensures |text| > maxLength >= |suffix| ==>
              r == text[..maxLength - |suffix|] + suffix && |r| == maxLength
    ensures |text| > maxLength ==> exists k :: 0 <= k <= |text| && r == text[..k] + suffix
  {
    if |text| <= maxLength then text
    else
      var kept := PrefixTo(text, maxLength - |suffix|);
      assert kept == text[..|kept|];
      kept + suffix
  }

  /** When the limit is shorter than the suffix, the negative slice bound
      counts back from the end of the text, so the "truncated" result is
      longer than the limit, and for a positive limit longer than the text
      itself: `truncate_string("abcdefghij", 1)` is `"abcdefgh..."`. */
  lemma TruncateOverflows(text: string, maxLength: int, suffix: string)
    requires maxLength < |suffix| && maxLength < |text|
    ensures |TruncateString(text, maxLength, suffix)| > maxLength
    ensures 0 < maxLength ==> |TruncateString(text, maxLength, suffix)| > |text|
  {
  }

  /** The concrete case above. */
  lemma TruncateOverflowExample()
    ensures TruncateString("abcdefghij", 1, DefaultSuffix) == "abcdefgh..."
  {
    assert PrefixTo("abcdefghij", 1 - 3) == "abcdefgh";
  }

  /** The truncation as evidently intended: the slice bound is clamped so the
      result never exceeds the limit. When the limit cannot hold the suffix,
      the text is cut to the limit without one. */
  function TruncateStringClamped(text: string, maxLength: int, suffix: string): (r: string)
    ensures |text| <= maxLength ==> r == text
    ensures |text| > maxLength >= |suffix| ==> r == text[..maxLength - |suffix|] + suffix
    ensures |r| <= |text| && (|r| <= maxLength || (maxLength < 0 && r == ""))
    ensures r <= text || (exists k :: 0 <= k <= |text| && r == text[..k] + suffix)
  {
    if |text| <= maxLength then text
    else if maxLength < |suffix| then (if maxLength >= 0 then text[..maxLength] else "")
    else text[..maxLength - |suffix|] + suffix
  }
}

=== FILE: user_store.dfy ===
/** `User` and `UserManagerNew`: an in-memory store of user records keyed by
    an identifier the store hands out from a counter that only grows. */
module UserStore {
  import opened Wrappers

  datatype User = User(id: int, name: string, email: string, age: int)

  /** The `users` dictionary and the `_next_id` counter. */
  datatype UserManager = UserManager(users: map<int, User>, nextId: int)

  /** The store's invariant: every record sits under its own id, and every id
      in use lies in `1 .. nextId - 1`, below the next one to be issued. */
  ghost predicate Valid(m: UserManager) {
    && 1 <= m.nextId
    && forall k :: k in m.users ==> m.users[k].id == k && 1 <= k < m.nextId
  }

  /** A new manager: no users, first id 1. */
  function Init(): (m: UserManager)
    ensures Valid(m) && m.users == map[] && m.nextId == 1
  {
    UserManager(map[], 1)
  }

  /** `get_user`: the record under `id`, `None` on a miss. */
  function GetUser(m: UserManager, id: int): (r: Option<User>)
    ensures r.Some? <==> id in m.users
    ensures r.Some? ==> r.value == m.users[id]
  {
    if id in m.users then Some(m.users[id]) else None
  }

  /** `add_user`: the record gets the current counter as its id, is stored
      under it, and the counter moves up by one. The new id was unused, so
      nothing stored before is overwritten. */
  function AddUser(m: UserManager, name: string, email: string, age: int): (r: (User, UserManager))
    ensures r.0 == User(m.nextId, name, email, age)
    ensures r.1.nextId == m.nextId + 1
    ensures r.1.users.Keys == m.users.Keys + {m.nextId}
    ensures GetUser(r.1, r.0.id) == Some(r.0)
    ensures forall k :: k in m.users && k != r.0.id ==> GetUser(r.1, k) == GetUser(m, k)
    ensures Valid(m) ==> m.nextId !in m.users && Valid(r.1)
  {
    var user := User(m.nextId, name, email, age);
    (user, UserManager(m.users[user.id := user], m.nextId + 1))
  }

  /** `delete_user`: reports whether `id` was present and removes it; every
      other record and the counter stay as they were, and deleting a missing
      id changes nothing. */
  function DeleteUser(m: UserManager, id: int): (r: (bool, UserManager))
    ensures r.0 <==> id in m.users
    ensures GetUser(r.1, id) == None
    ensures r.1.nextId == m.nextId
    ensures forall k :: k != id ==> GetUser(r.1, k) == GetUser(m, k)
    ensures !r.0 ==> r.1 == m
    ensures Valid(m) ==> Valid(r.1)
  {
    if id in m.users then (true, UserManager(m.users - {id}, m.nextId))
    else (false, m)
  }

  /** The stored records with ids in `lo .. hi - 1`, in ascending id order. */
  function Collect(users: map<int, User>, lo: int, hi: int): (r: seq<User>)
    requires forall k :: k in users ==> users[k].id == k
    ensures forall i :: 0 <= i < |r| ==> lo <= r[i].id < hi && r[i].id in users && users[r[i].id] == r[i]
    decreases hi - lo
  {
    if lo >= hi then []
    else (if lo in users then [users[lo]] else []) + Collect(users, lo + 1, hi)
  }

  /** `Collect` lists ids in strictly increasing order. */
  lemma {:induction false} CollectSorted(users: map<int, User>, lo: int, hi: int)
    requires forall k :: k in users ==> users[k].id == k
    ensures forall i, j :: 0 <= i < j < |Collect(users, lo, hi)| ==> Collect(users, lo, hi)[i].id < Collect(users, lo, hi)[j].id
    decreases hi - lo
  {
    if lo < hi {
      CollectSorted(users, lo + 1, hi);
    }
  }

  /** `Collect` misses no stored record of its range. */
  lemma {:induction false} CollectComplete(users: map<int, User>, lo: int, hi: int, k: int)
    requires forall k :: k in users ==> users[k].id == k
    requires lo <= k < hi && k in users
    ensures users[k] in Collect(users, lo, hi)
    decreases hi - lo
  {
    if lo < k {
      CollectComplete(users, lo + 1, hi, k);
    }
  }

  /** The ids stored in `lo .. hi - 1`. */
  ghost function IdsBetween(users: map<int, User>, lo: int, hi: int): set<int> {
    set k | k in users && lo <= k < hi
  }

  /** Peeling the lowest id off a non-empty range. */
  lemma IdsBetweenStep(users: map<int, User>, lo: int, hi: int)
    requires lo < hi
    ensures |IdsBetween(users, lo, hi)| == (if lo in users then 1 else 0) + |IdsBetween(users, lo + 1, hi)|
  {
    var all, rest := IdsBetween(users, lo, hi), IdsBetween(users, lo + 1, hi);
    if lo in users {
      assert all == rest + {lo};
    } else {
      assert all == rest;
    }
  }

  /** `Collect` lists each stored id of its range exactly once. */
  lemma {:induction false} CollectLength(users: map<int, User>, lo: int, hi: int)
    requires forall k :: k in users ==> users[k].id == k
    ensures |Collect(users, lo, hi)| == |IdsBetween(users, lo, hi)|
    decreases hi - lo
  {
    if lo < hi {
      CollectLength(users, lo + 1, hi);
      IdsBetweenStep(users, lo, hi);
    } else {
      assert IdsBetween(users, lo, hi) == {};
    }
  }

  /** `get_all_users`: `list(users.values())`. A Python dictionary lists its
      values in insertion order, and since ids are issued in increasing order
      and never reused, that is ascending id order. The result holds every
      stored record, once each, and nothing else. */
  function GetAllUsers(m: UserManager): (r: seq<User>)
    requires Valid(m)
    ensures forall u :: u in r <==> u in m.users.Values
    ensures forall i, j :: 0 <= i < j < |r| ==> r[i].id < r[j].id
    ensures |r| == |m.users|
  {
    CollectAll(m);
    CollectSorted(m.users, 1, m.nextId);
    Collect(m.users, 1, m.nextId)
  }

  /** Over the whole id range, `Collect` lists exactly the stored records,
      one per id. */
  lemma CollectAll(m: UserManager)
    requires Valid(m)
    ensures forall u :: u in Collect(m.users, 1, m.nextId) <==> u in m.users.Values
    ensures |Collect(m.users, 1, m.nextId)| == |m.users|
  {
    var r := Collect(m.users, 1, m.nextId);
    CollectLength(m.users, 1, m.nextId);
    IdsBetweenAll(m);
    forall u | u in m.users.Values
      ensures u in r
    {
      var k :| k in m.users && m.users[k] == u;
      CollectComplete(m.users, 1, m.nextId, k);
    }
    forall u | u in r
      ensures u in m.users.Values
    {
      var i :| 0 <= i < |r| && r[i] == u;
      assert m.users[u.id] == u;
    }
  }

  /** Under the invariant, the whole id range holds every stored id. */
  lemma IdsBetweenAll(m: UserManager)
    requires Valid(m)
    ensures IdsBetween(m.users, 1, m.nextId) == m.users.Keys
  {
  }

  /** One call on the manager, for reasoning about call sequences. */
  datatype Request = AddReq(name: string, email: string, age: int) | DeleteReq(id: int) | GetReq(id: int)

  /** The manager after `reqs`, and the ids `add_user` handed out, in order. */
  function Replay(m: UserManager, reqs: seq<Request>): (UserManager, seq<int>)
    decreases |reqs|
  {
    if |reqs| == 0 then (m, [])
    else
      match reqs[0]
      case AddReq(name, email, age) =>
        var (u, m') := AddUser(m, name, email, age);
        var (final, ids) := Replay(m', reqs[1..]);
        (final, [u.id] + ids)
      case DeleteReq(id) => Replay(DeleteUser(m, id).1, reqs[1..])
      case GetReq(_) => Replay(m, reqs[1..])
  }

  /** Ids are never reused: across any mix of adds, deletes and lookups the
      issued ids strictly increase, all lie at or above the counter the run
      started from (so none was ever stored before), and the invariant holds
      at the end. */
  lemma {:induction false} IdsNeverReused(m: UserManager, reqs: seq<Request>)
    requires Valid(m)
    ensures var (final, ids) := Replay(m, reqs);
      && Valid(final)
      && m.nextId <= final.nextId
      && (forall i :: 0 <= i < |ids| ==> m.nextId <= ids[i] < final.nextId)
      && (forall i, j :: 0 <= i < j < |ids| ==> ids[i] < ids[j])
      && (forall i :: 0 <= i < |ids| ==> ids[i] !in m.users)
    decreases |reqs|
  {
    if |reqs| > 0 {
      match reqs[0]
      case AddReq(name, email, age) =>
        var (u, m') := AddUser(m, name, email, age);
        IdsNeverReused(m', reqs[1..]);
      case DeleteReq(id) =>
        IdsNeverReused(DeleteUser(m, id).1, reqs[1..]);
      case GetReq(_) =>
        IdsNeverReused(m, reqs[1..]);
    }
  }
}

=== FILE: validate_user.dfy ===
/** `validate_user_old` and `validate_user_new`: a user dictionary is valid
    when it has an email containing '@', a non-empty name and a positive
    age. */
module ValidateUser {
  import opened Wrappers

  /** The keys the validators read; each may be missing. `None` for the
      whole record is Python's `None` argument. Keys other than these three
      cannot change either validator's answer, so an empty dictionary is a
      record with all three missing. */
  datatype UserFields = UserFields(email: Option<string>, name: Option<string>, age: Option<int>)

  /** The early-return version, with its defaults: a missing email or name
      reads as "", a missing age as 0. */
  function ValidateUserNew(user: Option<UserFields>): (r: bool)
    ensures r <==>
      && user.Some?
      && user.value.email.Some? && '@' in user.value.email.value
      && user.value.name.Some? && |user.value.name.value| > 0
      && user.value.age.Some? && user.value.age.value > 0
  {
    if user.None? then false
    else
      var email := user.value.email.GetOr("");
      if |email| == 0 || '@' !in email then false
      else
        var name := user.value.name.GetOr("");
        if |name| == 0 then false
        else
          var age := user.value.age.GetOr(0);
          if age <= 0 then false
          else true
  }

  /** The nested version: each key must be present before its value is
      examined. It gives the same answer as the new version on every input. */
  function ValidateUserOld(user: Option<UserFields>): (r: bool)
    ensures r == ValidateUserNew(user)
  {
    if user.Some? then
      if user.value.email.Some? then
        if '@' in user.value.email.value then
          if user.value.name.Some? then
            if |user.value.name.value| > 0 then
              if user.value.age.Some? then
                user.value.age.value > 0
              else false
            else false
          else false
        else false
      else false
    else false
  }
}

=== FILE: wrappers.dfy ===
/** Failure-carrying datatypes shared by the whole model: `Option` for
    Python's `Optional[...]`/`None`, `Result` for a value or a raised error. */
module Wrappers {

  datatype Option<+T> = None | Some(value: T) {

    /** The value, or `default` when absent (Python's `d.get(k, default)`). */
    function GetOr(default: T): T {
      match this
      case Some(v) => v
      case None => default
    }
  }

  datatype Result<+R, +E> = Success(value: R) | Failure(error: E)
}
